=== FILE: README.md ===
# k6 stress-test workload, modelled in Dafny

The repository is a k6 load test for a social-media API. Virtual users log in
with accounts read from a CSV file. Each iteration draws a random number that
decides whether the user scrolls the feed, creates a post or uploads a story.
After the run, a summary page labels the target environment (DEV, STAGING or
PRODUCTION) from the base URL. A small Node launcher reads a `.env` file into
the environment and starts k6 with default arguments. The story upload builds
its `multipart/form-data` body by hand.

This project models those pure rules as Dafny functions over strings,
sequences and maps, and proves what they promise.

| file | module | models |
|---|---|---|
| `wrappers.dfy` | `Wrappers` | `Option`, used where JavaScript yields `undefined` or "nothing to do" |
| `text.dfy` | `Text` | the JavaScript string operations used: `trim`, `toLowerCase`, `includes`, `startsWith`, `split` on one character, `join` |
| `accounts.dfy` | `Accounts` | the account list read from `data/accounts.csv` and the per-user rotation (master.js) |
| `workload.dfy` | `Workload` | the scenario choice from `r` and one iteration's plan (master.js) |
| `environment.dfy` | `Environment` | the base URL default, the environment classification and the badge class (master.js) |
| `dotenv.dfy` | `DotEnv` | `.env` line parsing, the fold of assignments into a map, and the default k6 arguments (load-env.js) |
| `multipart.dfy` | `Multipart` | `buildMultipartFormData`, a reader for its output, the Content-Type boundary and the story request (scenarios/createStory.js) |

Where the code and a plain-language reading of it differ, the model follows
the code:

- "staging" does not contain "stage": its sixth letter is `i`, not `e`. So
  the second test on master.js:46 is not redundant. A URL such as
  `https://staging.myapp.io` is STAGING only because of it
  (`Environment.StagingWithoutStage`).
- Counted from the three appends on createStory.js:43-45, one part is
  `|b| + 49 + |name| + |value|` characters long. The close delimiter adds
  `|b| + 6` (`Multipart.EncodeLength`).
- The quote-stripping expression on load-env.js:24 removes one quote at the
  start, then one at the end of what is left. So a lone quote becomes the
  empty string.
- When the account list is empty, `emails[__VU % 0]` is `undefined`. It is
  modelled as `None`, not ruled out by a precondition.
- The body reader reads as an RFC 2046 receiver does: it cuts the body into
  CRLF-terminated lines and then cuts those at every line that begins with
  `--` and the boundary. So the round trip needs no CRLF in the boundary,
  the names or the values, and also no value that itself begins with `--`
  and the boundary. The boundary text may still appear later inside a
  value. The three story values begin with `{`, `[` and `t`.

## Model

| member | source | states |
|---|---|---|
| Text.Trim | master.js:17 | the trimmed text is never longer than the input and has no whitespace at either end |
| Text.Lower | master.js:43 | lowercasing keeps the length, turns each capital letter into its own lowercase letter, leaves no capital, and leaves every other character unchanged |
| Text.Contains | master.js:44-46 | a text can contain only a pattern no longer than itself |
| Text.ContainsIff | master.js:44-46 | the scan finds the pattern exactly when it occurs at some position |
| Text.Split | master.js:15 | splitting on one character always gives at least one piece |
| Text.SplitCount | master.js:15 | there is exactly one more piece than there are separators in the text |
| Text.SplitPartsFree | load-env.js:22 | no piece of a split contains the separator |
| Text.Join | load-env.js:24 | a join starts with its first piece |
| Text.TrimSpec | master.js:17 | the trimmed text is the input with a whitespace-only prefix and suffix removed, and it is empty exactly when the input is all whitespace |
| Text.TrimPadded | load-env.js:20 | trimming whitespace padding around a non-empty text that is already trimmed gives that text back |
| Text.JoinSplit | load-env.js:22-24 | joining the pieces of a split with the same separator gives back the original text |
| Text.SplitJoin | load-env.js:22-24 | splitting a join of separator-free pieces gives back those pieces |
| Text.SplitAtFirst | load-env.js:22 | splitting gives the text before the first separator, followed by the pieces of the text after it |
| Accounts.Lines | master.js:15 | the file always has at least one line, even when it is empty |
| Accounts.ParseEmails | master.js:13-18 | there are at most lines-minus-one emails, and every email is non-empty and has no leading or trailing whitespace (so no `\r` from CRLF files) |
| Accounts.EmailsMembership | master.js:14-18 | a string is an email exactly when it is non-empty and is the trim of some line after the header |
| Accounts.NonEmptyMembership | master.js:18 | the filter keeps exactly the non-empty strings |
| Accounts.NonEmpty | master.js:18 | the filter never adds strings and keeps only non-empty ones |
| Accounts.TrimAll | master.js:17 | the map trims every line and keeps the line count |
| Accounts.HeaderOnly | master.js:15-16 | an empty file, or a file with no line break (a header only), yields no emails |
| Accounts.EmailCountBound | master.js:15-18 | the number of emails is at most the number of `\n` characters in the file |
| Accounts.AppendLine | master.js:14-18 | appending a line to the file appends its trimmed form to the list when it is not blank and leaves the earlier emails in order |
| Accounts.EmailsOfRows | master.js:14-18 | for a file written as rows joined by `\n`, the emails are the trimmed non-blank rows after the first, in order |
| Accounts.SampleFile | master.js:14-18 | a file with a header, a blank line, a padded address and a trailing newline yields exactly the two addresses |
| Accounts.AccountFor | master.js:21 | a user gets an account exactly when the list is non-empty, and it is one of the listed emails |
| Accounts.RotationFirstRound | master.js:21 | user numbers below the list length get the email at that position |
| Accounts.RotationPeriodic | master.js:21 | user numbers one list length apart get the same account |
| Accounts.RotationSameAccount | master.js:21 | with distinct emails, two users share an account exactly when their numbers have the same remainder modulo the list length |
| Workload.Select | master.js:24-32 | `r < 0.5` gives scrollFeed, `0.5 <= r < 0.8` gives createPost and `r >= 0.8` gives createStory, each as an if-and-only-if |
| Workload.SelectMonotone | master.js:26-32 | a larger `r` never selects an earlier scenario in the order scrollFeed, createPost, createStory |
| Workload.PickCumulative | master.js:26-32 | the cumulative-weight pick finds a scenario exactly when `r` is below the running total, and the scenario is one of the weighted ones |
| Workload.WeightsSumToOne | master.js:26-32 | the weights 0.5, 0.3 and 0.2 implied by the thresholds sum to 1 |
| Workload.SelectIsCumulative | master.js:26-32 | for `0 <= r < 1` the threshold chain equals the pick from weights 0.5, 0.3, 0.2 |
| Workload.SampleDraws | master.js:26-32 | draws on both sides of each threshold select the expected scenario |
| Workload.Iteration | master.js:20-32 | an iteration logs in with `emails[vu % n]` when the list is non-empty and with no account otherwise, and scrolls the feed, creates a post or uploads a story exactly as `r` falls below 0.5, in [0.5, 0.8) or at or above 0.8 |
| Workload.AccountStableAcrossIterations | master.js:21 | the account of a user does not depend on the draw, so it is the same on every iteration |
| Environment.BaseUrl | master.js:39 | the base URL is never empty: it is `BASE_URL` when that is set and non-empty, and the default development URL otherwise |
| Environment.Classify | master.js:42-48 | DEV exactly when the lowercased URL contains "dev"; STAGING exactly when it does not but contains "stage" or "staging"; PRODUCTION otherwise |
| Environment.DevInAnyCase | master.js:43-45 | "dev" in any letter case anywhere in the URL gives DEV, whatever else it contains |
| Environment.StagingWithoutStage | master.js:46-47 | the URL `https://staging.myapp.io` contains "staging" but not "stage" and is classified STAGING, so the "staging" test is needed |
| Environment.ClassifyIgnoresCase | master.js:43 | URLs that differ only in letter case get the same environment |
| Environment.DefaultIsDev | master.js:39-45 | with `BASE_URL` unset or empty, the environment is DEV |
| Environment.Label | master.js:42-48 | every environment label is a non-empty word of capital letters |
| Environment.BadgeClass | master.js:97 | the badge class is `env-` plus the lowercased label, and it is always one of the three styled classes |
| Environment.LowerLabel | master.js:97 | lowercasing each label gives "dev", "staging" or "production" |
| Environment.BadgeInjective | master.js:83-85 | different environments get different badge classes |
| DotEnv.Assignment | load-env.js:20-24 | an assigned key is never empty, never starts with `#` and never contains `=` |
| DotEnv.StripQuotes | load-env.js:24 | at most one quote is removed from each end, independently; interior characters are kept; a lone quote becomes empty |
| DotEnv.StripQuotesQuoted | load-env.js:24 | a value between two quote characters, matching or not, comes out unchanged |
| DotEnv.StripQuotesUnquoted | load-env.js:24 | a value that neither starts nor ends with a quote is unchanged |
| DotEnv.SkippedLines | load-env.js:20-21 | blank lines and lines whose trimmed form starts with `#`, indented comments included, assign nothing |
| DotEnv.NoEqualsSign | load-env.js:22-23 | a trimmed line without `=` assigns nothing |
| DotEnv.SplitsAtFirstEquals | load-env.js:22-24 | the key is the text before the first `=` and the value is everything after it, quotes stripped; a line starting with `=` assigns nothing |
| DotEnv.AssignsIff | load-env.js:20-24 | a line assigns exactly when its trimmed form is non-empty, is not a comment, contains `=` and does not start with `=` |
| DotEnv.SampleLine | load-env.js:20-25 | a trimmed line `key=raw` whose key is non-empty, has no `=` and does not start with `#` assigns the key the quote-stripped raw text |
| DotEnv.SampleEqualsInValue | load-env.js:22-24 | `A=b=c` assigns `b=c` to `A` |
| DotEnv.SampleEmptyValue | load-env.js:22-25 | `KEY=` assigns the empty string |
| DotEnv.SampleSpacedEquals | load-env.js:20-22 | `K = v` assigns `" v"` to `"K "`, because only the whole line is trimmed |
| DotEnv.SampleMismatchedQuotes | load-env.js:24 | mismatched quotes are both stripped |
| DotEnv.ApplyLine | load-env.js:25 | an assigning line sets its key to its value and adds no other key; every other key keeps its value; a line that assigns nothing changes nothing |
| DotEnv.LoadLines | load-env.js:19-28 | applying the lines never removes a variable |
| DotEnv.LoadConcat | load-env.js:19-28 | loading two blocks of lines is loading the first, then the second on its result |
| DotEnv.LoadUntouched | load-env.js:19-28 | a key that no line assigns keeps its previous presence and value |
| DotEnv.LastWins | load-env.js:19-28 | a key ends with the value of the last line that assigns it |
| DotEnv.LoadEnvFile | load-env.js:15-28 | with no file the variables are unchanged; with one, no variable is removed |
| DotEnv.LoadEnvFileLines | load-env.js:16-19 | a file made of lines joined by `\n` is loaded line by line, in order |
| DotEnv.K6Args | load-env.js:36-39 | the k6 arguments are the user's arguments when there are any, and `run master.js` otherwise; they are never empty |
| Multipart.Encode | scenarios/createStory.js:39-50 | the body is at least the close delimiter long (the boundary plus 6), and exactly that long only when there are no fields |
| Multipart.BuildMultipartFormData | scenarios/createStory.js:39-50 | the loop builds, in field order, one part per field followed by the close delimiter |
| Multipart.EncodeEmpty | scenarios/createStory.js:40-49 | with no fields the body is exactly `--` boundary `--` CRLF |
| Multipart.EncodeCons | scenarios/createStory.js:42-48 | the body is the first field's part followed by the body of the remaining fields |
| Multipart.PartsSnoc | scenarios/createStory.js:42-46 | adding a field at the end appends exactly its part to the parts |
| Multipart.AppendField | scenarios/createStory.js:42-48 | appending a field inserts exactly its part just before the close delimiter and leaves everything earlier unchanged |
| Multipart.EncodeFrame | scenarios/createStory.js:43-48 | every body starts with `--` boundary and ends with the close delimiter |
| Multipart.EncodeLength | scenarios/createStory.js:43-48 | the body length is the boundary length plus 6, plus the boundary length, name length, value length and 49 for each field |
| Multipart.NextBoundary | scenarios/createStory.js:43 | the search stops at the first line, from the given one on, that begins with the dash-boundary the loop writes, or at the end when no later line does |
| Multipart.HeaderLineNotBoundary | scenarios/createStory.js:44 | a Content-Disposition header line is never taken for a boundary line |
| Multipart.PartBodyLines | scenarios/createStory.js:43-45 | one part cuts into exactly four lines: the delimiter, the header, an empty line and the value |
| Multipart.EncodeLines | scenarios/createStory.js:42-48 | when no boundary, name or value contains CRLF, the body cuts into the parts' lines followed by the close delimiter line, with nothing left over |
| Multipart.ReadFieldLines | scenarios/createStory.js:42-48 | when no value begins with the dash-boundary, cutting those lines at the boundary lines yields each field's name and value, in order |
| Multipart.DecodeEncode | scenarios/createStory.js:42-48 | when no boundary, name or value contains CRLF and no value begins with `--` and the boundary, a receiver that cuts the body at its boundary lines recovers exactly the fields, in order |
| Multipart.ValidBoundaryNoCrlf | scenarios/createStory.js:21 | a boundary valid under RFC 2046 holds no CRLF |
| Multipart.StoryBoundaryValid | scenarios/createStory.js:21 | the story boundary is 1 to 70 boundary characters and does not end in a space |
| Multipart.ContentType | scenarios/createStory.js:26 | the header value is a `multipart/form-data` type whose text after the boundary parameter name is exactly the boundary |
| Multipart.BoundaryParameterOf | scenarios/createStory.js:26 | the Content-Type header announces exactly the boundary it was built from |
| Multipart.CreateStory | scenarios/createStory.js:4-29 | the story request goes to exactly the base URL followed by `/story`, carries the caller's token, and its header names the story boundary |
| Multipart.StoryBodyReadsBack | scenarios/createStory.js:9-26 | cutting the story body at the boundary lines named in its header gives back the location, contents and allow_comments fields, in order |

## Left out

- HTTP traffic and k6 checks are not modelled. This covers `login`, `createPost`, `scrollFeed`, the `http.post` of `createStory` and the checks on the response. They are calls into the k6 runtime. `CreateStory` returns the request it would send.
- scenarios/login.js re-parses the account file the same way as master.js:14-18. It is not modelled separately.
- Virtual-user scheduling, `sleep`, the `options` block, metrics and the `__VU` variable are not modelled. k6 provides them. The user number is a `nat` parameter.
- `Math.random` is not modelled. The draw `r` is a parameter.
- Workload.Select: `r` and the thresholds are exact `real`s, not IEEE doubles. The comparisons are the same for every double that `Math.random` can return.
- Date formatting with `toLocaleDateString` depends on the locale and the clock. It is not modelled.
- The HTML template, the remote `htmlReport` bundle and its `.replace` chain are templating over a library that is not part of this model. Only the badge class is modelled.
- Reading the CSV and `.env` files, writing `process.env`, `spawn`, `process.exit` and the console messages are not modelled. A file is a string, or `None` when it is absent. The environment is a map that is passed in and returned.
- Text.Trim: only ASCII whitespace is removed (space, tab, line feed, vertical tab, form feed, carriage return). JavaScript also removes the other Unicode spaces, the line separators U+2028 and U+2029, and the byte-order mark U+FEFF. So for a `.env` file saved with a byte-order mark, JavaScript strips it from the first key and the model keeps it.
- Text.Lower: only ASCII letters are lowercased. JavaScript also folds the other Unicode letters.
- Multipart.BuildMultipartFormData: the fields are a sequence of name-value pairs in enumeration order. The JavaScript `for...in` order is not modelled: it puts integer-like keys first. The story form has no integer-like keys, so its order is the declaration order.
- Multipart.StoryLocation is the text `JSON.stringify` produces for the location object, written out. `JSON.stringify` itself is not modelled.


=== FILE: accounts.dfy ===
/** The account pool of master.js: the e-mail list read from the account
    CSV file, and the rotation that gives each virtual user (VU) its account. */
module Accounts {
  import opened Text
  import opened Wrappers

  /** The physical lines of the account file, cut at every line feed. */
  function Lines(csv: string): (lines: seq<string>)
    ensures |lines| >= 1
  {
    Split(csv, '\n')
  }

  /** Trims every row, keeping positions. */
  function TrimAll(rows: seq<string>): (r: seq<string>)
    ensures |r| == |rows|
    ensures forall k :: 0 <= k < |rows| ==> r[k] == Trim(rows[k])
  {
    if |rows| == 0 then [] else [Trim(rows[0])] + TrimAll(rows[1..])
  }

  /** `filter(Boolean)` on strings: keeps the non-empty ones, in order. */
  function NonEmpty(xs: seq<string>): (r: seq<string>)
    ensures |r| <= |xs|
    ensures forall k :: 0 <= k < |r| ==> r[k] != ""
  {
    if |xs| == 0 then []
    else (if xs[0] == "" then [] else [xs[0]]) + NonEmpty(xs[1..])
  }

  /** The filter keeps exactly the non-empty members. */
  lemma {:induction false} NonEmptyMembership(xs: seq<string>, s: string)
    ensures s in NonEmpty(xs) <==> s in xs && s != ""
  {
    if |xs| > 0 {
      NonEmptyMembership(xs[1..], s);
      assert xs == [xs[0]] + xs[1..];
    }
  }

  /** The e-mail list: every line after the header, trimmed, with the
      blank ones dropped. Every e-mail is non-empty and has no whitespace
      (carriage returns of CRLF files included) at either end, and there is
      at most one per line after the header. */
  function ParseEmails(csv: string): (emails: seq<string>)
    ensures |emails| <= |Lines(csv)| - 1
    ensures forall k :: 0 <= k < |emails| ==> emails[k] != "" && IsTrimmed(emails[k])
  {
    var trimmed := TrimAll(Lines(csv)[1..]);
    var emails := NonEmpty(trimmed);
    assert forall k | 0 <= k < |emails| :: IsTrimmed(emails[k]) by {
      forall k | 0 <= k < |emails| ensures IsTrimmed(emails[k]) {
        NonEmptyMembership(trimmed, emails[k]);
      }
    }
    emails
  }

  /** Membership: a string is an e-mail exactly when it is the non-empty
      trim of some line other than the header. */
  lemma EmailsMembership(csv: string, e: string)
    ensures e in ParseEmails(csv) <==>
              e != "" && exists i :: 1 <= i < |Lines(csv)| && Trim(Lines(csv)[i]) == e
  {
    TailMembership(Lines(csv), e);
  }

  lemma TailMembership(lines: seq<string>, e: string)
    requires |lines| >= 1
    ensures e in NonEmpty(TrimAll(lines[1..])) <==>
              e != "" && exists i :: 1 <= i < |lines| && Trim(lines[i]) == e
  {
    var trimmed := TrimAll(lines[1..]);
    NonEmptyMembership(trimmed, e);
    if e in trimmed {
      var k :| 0 <= k < |trimmed| && trimmed[k] == e;
      assert lines[1..][k] == lines[k + 1];
    }
    if i :| 1 <= i < |lines| && Trim(lines[i]) == e {
      assert lines[1..][i - 1] == lines[i];
      assert trimmed[i - 1] == e;
    }
  }

  /** An empty file, or one holding only the header line, gives no e-mails. */
  lemma HeaderOnly(csv: string)
    requires '\n' !in csv
    ensures ParseEmails(csv) == []
  {
    SplitNone(csv, '\n');
  }

  /** The number of e-mails is at most the number of line feeds. */
  lemma EmailCountBound(csv: string)
    ensures |ParseEmails(csv)| <= multiset(csv)['\n']
  {
    SplitCount(csv, '\n');
  }

  lemma {:induction false} TrimAllConcat(a: seq<string>, b: seq<string>)
    ensures TrimAll(a + b) == TrimAll(a) + TrimAll(b)
    decreases |a|
  {
    if |a| == 0 {
      assert a + b == b;
    } else {
      assert (a + b)[1..] == a[1..] + b;
      TrimAllConcat(a[1..], b);
    }
  }

  lemma {:induction false} NonEmptyConcat(a: seq<string>, b: seq<string>)
    ensures NonEmpty(a + b) == NonEmpty(a) + NonEmpty(b)
    decreases |a|
  {
    if |a| > 0 {
      assert (a + b)[1..] == a[1..] + b;
      NonEmptyConcat(a[1..], b);
    } else {
      assert a + b == b;
    }
  }

  /** Appending one line to the file appends its trim to the e-mail list
      when that trim is non-empty, and changes nothing otherwise. With
      HeaderOnly this fixes the list completely: it is the non-empty trimmed
      lines after the first, in file order. */
  lemma AppendLine(csv: string, line: string)
    requires '\n' !in line
    ensures ParseEmails(csv + "\n" + line) ==
              ParseEmails(csv) + (if Trim(line) == "" then [] else [Trim(line)])
  {
    LinesAppend(csv, line);
    TailAppend(Lines(csv), line);
  }

  lemma LinesAppend(csv: string, line: string)
    requires '\n' !in line
    ensures Lines(csv + "\n" + line) == Lines(csv) + [line]
  {
    SplitConcat(csv, line, '\n');
    SplitNone(line, '\n');
    assert csv + "\n" + line == csv + ['\n'] + line;
  }

  lemma TailAppend(lines: seq<string>, line: string)
    requires |lines| >= 1
    ensures NonEmpty(TrimAll((lines + [line])[1..])) ==
              NonEmpty(TrimAll(lines[1..])) + (if Trim(line) == "" then [] else [Trim(line)])
  {
    var t := Trim(line);
    assert (lines + [line])[1..] == lines[1..] + [line];
    TrimAllConcat(lines[1..], [line]);
    assert TrimAll([line]) == [t];
    NonEmptyConcat(TrimAll(lines[1..]), [t]);
    assert NonEmpty([t]) == (if t == "" then [] else [t]) by {
      assert [t][1..] == [];
    }
  }

  /** For a file given as its lines: the e-mails are the lines after the
      first, trimmed, with the blank ones dropped, in file order. */
  lemma EmailsOfRows(rows: seq<string>)
    requires |rows| >= 1
    requires forall k :: 0 <= k < |rows| ==> '\n' !in rows[k]
    ensures ParseEmails(Join(rows, '\n')) == NonEmpty(TrimAll(rows[1..]))
  {
    SplitJoin(rows, '\n');
  }

  /** A sample account file (a header, one address, a blank line, a padded
      address and a trailing newline): the header is skipped, the blank
      lines dropped and the padded address trimmed. */
  lemma SampleFile()
    ensures ParseEmails("header\na@x.com\n\n b@x.com \n") == ["a@x.com", "b@x.com"]
  {
    SampleRows();
    SampleTrims();
    assert NonEmpty(["a@x.com", "", "b@x.com", ""]) == ["a@x.com", "b@x.com"];
  }

  lemma SampleRows()
    ensures ParseEmails("header\na@x.com\n\n b@x.com \n") ==
              NonEmpty(TrimAll(["a@x.com", "", " b@x.com ", ""]))
  {
    var all := ["header", "a@x.com", "", " b@x.com ", ""];
    assert Join(all, '\n') == "header\na@x.com\n\n b@x.com \n";
    EmailsOfRows(all);
    assert all[1..] == ["a@x.com", "", " b@x.com ", ""];
  }

  lemma SampleTrims()
    ensures TrimAll(["a@x.com", "", " b@x.com ", ""]) == ["a@x.com", "", "b@x.com", ""]
  {
    TrimTrimmed("a@x.com");
    TrimPadded(" ", "b@x.com", " ");
    assert " " + "b@x.com" + " " == " b@x.com ";
  }

  /** The account of virtual user `vu`: `emails[__VU % emails.length]`.
      With no e-mails the index is NaN and JavaScript yields `undefined`,
      modelled as None. */
  function AccountFor(emails: seq<string>, vu: nat): (account: Option<string>)
    ensures account.Some? <==> |emails| > 0
    ensures account.Some? ==> account.value in emails
  {
    if |emails| == 0 then None else Some(emails[vu % |emails|])
  }

  /** The first |emails| virtual users get the e-mails in list order. */
  lemma RotationFirstRound(emails: seq<string>, vu: nat)
    requires vu < |emails|
    ensures AccountFor(emails, vu) == Some(emails[vu])
  {
    ModUnique(vu, |emails|, 0, vu);
  }

  /** Rotation wraps around: VU numbers |emails| apart share an account. */
  lemma RotationPeriodic(emails: seq<string>, vu: nat)
    requires |emails| > 0
    ensures AccountFor(emails, vu + |emails|) == AccountFor(emails, vu)
  {
    var n := |emails|;
    ModUnique(vu + n, n, vu / n + 1, vu % n);
  }

  /** Euclidean remainder is determined by any quotient/remainder pair. */
  lemma ModUnique(a: int, n: int, q: int, r: int)
    requires n > 0 && 0 <= r < n && a == n * q + r
    ensures a % n == r
  {
    var q', r' := a / n, a % n;
    assert n * (q - q') == r' - r;
    if q - q' >= 1 {
      MulAtLeast(n, q - q');
    } else if q' - q >= 1 {
      MulAtLeast(n, q' - q);
    }
  }

  lemma MulAtLeast(n: nat, d: int)
    requires d >= 1
    ensures n * d >= n
  {
  }

  /** With distinct e-mails, two virtual users share an account exactly when
      their numbers agree modulo the pool size. */
  lemma RotationSameAccount(emails: seq<string>, vu1: nat, vu2: nat)
    requires |emails| > 0
    requires forall i, j :: 0 <= i < j < |emails| ==> emails[i] != emails[j]
    ensures AccountFor(emails, vu1) == AccountFor(emails, vu2) <==>
              vu1 % |emails| == vu2 % |emails|
  {
    var i, j := vu1 % |emails|, vu2 % |emails|;
    if i < j {
      assert emails[i] != emails[j];
    } else if j < i {
      assert emails[j] != emails[i];
    }
  }
}

=== FILE: dotenv.dfy ===
/** load-env.js: the `.env` reader that fills the process environment
    before k6 is started, and the default k6 command line. The environment
    is an explicit map that the reader returns instead of mutating. */
module DotEnv {
  import opened Text
  import opened Wrappers

  type Vars = map<string, string>

  predicate IsQuote(c: char) {
    c == '"' || c == '\''
  }

  /** `.replace(/^["']|["']$/g, '')`: one quote, single or double, comes
      off each end independently, so mismatched pairs are stripped as well;
      interior quotes stay. A lone quote is matched by the first alternative
      and the second has nothing left to match, so it becomes empty. */
  function StripQuotes(v: string): (r: string)
    ensures |v| >= 2 ==>
      r == v[(if IsQuote(v[0]) then 1 else 0)..(if IsQuote(v[|v| - 1]) then |v| - 1 else |v|)]
    ensures |v| == 1 ==> (r == "" <==> IsQuote(v[0])) && (r != "" ==> r == v)
    ensures |v| == 0 ==> r == ""
  {
    var a := if |v| > 0 && IsQuote(v[0]) then v[1..] else v;
    if |a| > 0 && IsQuote(a[|a| - 1]) then a[..|a| - 1] else a
  }

  /** A value between two quotes, matching or not, loses exactly them. */
  lemma StripQuotesQuoted(open: char, m: string, close: char)
    requires IsQuote(open) && IsQuote(close)
    ensures StripQuotes([open] + m + [close]) == m
  {
    var v := [open] + m + [close];
    assert v[1..|v| - 1] == m;
  }

  /** A value with no quote at either end is kept as it is. */
  lemma StripQuotesUnquoted(v: string)
    requires |v| == 0 || (!IsQuote(v[0]) && !IsQuote(v[|v| - 1]))
    ensures StripQuotes(v) == v
  {
  }

  /** The assignment a `.env` line makes, if any: the trimmed line split on
      `=`, the first piece as key, the other pieces joined back with `=` and
      unquoted as value. Blank lines, comments, lines with no `=` and lines
      with an empty key assign nothing. */
  function Assignment(line: string): (a: Option<(string, string)>)
    ensures a.Some? ==> a.value.0 != "" && a.value.0[0] != '#' && '=' !in a.value.0
  {
    var t := Trim(line);
    if t == "" || t[0] == '#' then None
    else
      var parts := Split(t, '=');
      var key := parts[0];
      assert key != "" ==> key[0] == t[0] by {
        if key != "" {
          JoinSplit(t, '=');
          assert StartsWith(t, key);
        }
      }
      SplitPartsFree(t, '=');
      if key != "" && |parts| > 1 then Some((key, StripQuotes(Join(parts[1..], '='))))
      else None
  }

  /** Blank lines (whitespace only) and comment lines, indented or not,
      assign nothing. */
  lemma SkippedLines(line: string)
    requires AllSpace(line) || (Trim(line) != "" && Trim(line)[0] == '#')
    ensures Assignment(line) == None
  {
    TrimSpec(line);
  }

  /** A line whose trimmed text has no `=` assigns nothing. */
  lemma NoEqualsSign(line: string)
    requires '=' !in Trim(line)
    ensures Assignment(line) == None
  {
    SplitNone(Trim(line), '=');
  }

  /** Otherwise the trimmed line is cut at its first `=`: the key is the
      text before it (nothing is assigned when that is empty) and the value
      is everything after it, later `=` signs included, with the quotes
      stripped. Only the whole line is trimmed, so spaces around the `=`
      stay in the key and the value. */
  lemma SplitsAtFirstEquals(line: string, i: nat)
    requires Trim(line) != "" && Trim(line)[0] != '#'
    requires FirstAt(Trim(line), '=', i)
    ensures var t := Trim(line);
      Assignment(line) == if i == 0 then None else Some((t[..i], StripQuotes(t[i + 1..])))
  {
    var t := Trim(line);
    SplitAtFirst(t, '=', i);
    var rest := Split(t[i + 1..], '=');
    assert Split(t, '=')[1..] == rest;
    JoinSplit(t[i + 1..], '=');
  }

  /** The lines the reader acts on, in one statement: a line assigns
      exactly when its trimmed text is non-empty, is not a comment, holds
      an `=`, and does not start with one. */
  lemma AssignsIff(line: string)
    ensures var t := Trim(line);
      Assignment(line).Some? <==> t != "" && t[0] != '#' && '=' in t && t[0] != '='
  {
    var t := Trim(line);
    if t != "" && t[0] != '#' {
      if '=' in t {
        FirstExists(t, '=');
        var i :| FirstAt(t, '=', i);
        SplitsAtFirstEquals(line, i);
        assert i == 0 <==> t[0] == '=';
      } else {
        NoEqualsSign(line);
      }
    }
  }

  /** A later `=` stays in the value. */
  lemma SampleEqualsInValue()
    ensures Assignment("A=b=c") == Some(("A", "b=c"))
  {
    SampleLine("A=b=c", "A", "b=c");
    StripQuotesUnquoted("b=c");
  }

  /** `KEY=` assigns the empty string. */
  lemma SampleEmptyValue()
    ensures Assignment("KEY=") == Some(("KEY", ""))
  {
    SampleLine("KEY=", "KEY", "");
  }

  /** Spaces around `=` stay in the key and in the value. */
  lemma SampleSpacedEquals()
    ensures Assignment("K = v") == Some(("K ", " v"))
  {
    SampleLine("K = v", "K ", " v");
    StripQuotesUnquoted(" v");
  }

  /** Mismatched quotes are stripped too. */
  lemma SampleMismatchedQuotes()
    ensures Assignment("T='x\"") == Some(("T", "x"))
  {
    SampleLine("T='x\"", "T", "'x\"");
    StripQuotesQuoted('\'', "x", '"');
    assert "'x\"" == ['\''] + "x" + ['"'];
  }

  lemma SampleLine(line: string, key: string, raw: string)
    requires line == key + "=" + raw
    requires key != "" && IsTrimmed(line)
    requires '=' !in key && key[0] != '#'
    ensures Assignment(line) == Some((key, StripQuotes(raw)))
  {
    TrimTrimmed(line);
    assert line[..|key|] == key;
    assert FirstAt(line, '=', |key|);
    SplitsAtFirstEquals(line, |key|);
    assert line[|key| + 1..] == raw;
  }

  /** One step of the `forEach`: apply the line's assignment, if any. */
  function ApplyLine(vars: Vars, line: string): (vars': Vars)
    ensures vars.Keys <= vars'.Keys
    ensures forall k :: k in vars && !AssignsKey(line, k) ==> vars'[k] == vars[k]
    ensures Assignment(line).Some? ==>
      var (key, value) := Assignment(line).value;
      vars'.Keys == vars.Keys + {key} && vars'[key] == value
    ensures Assignment(line).None? ==> vars' == vars
  {
    match Assignment(line)
    case None => vars
    case Some((key, value)) => vars[key := value]
  }

  /** `lines.forEach(...)`: the lines are applied first to last. Keys are
      only ever added, never removed. */
  function LoadLines(lines: seq<string>, vars: Vars): (vars': Vars)
    ensures vars.Keys <= vars'.Keys
  {
    if |lines| == 0 then vars else LoadLines(lines[1..], ApplyLine(vars, lines[0]))
  }

  /** `line` assigns to `key`. */
  predicate AssignsKey(line: string, key: string) {
    Assignment(line).Some? && Assignment(line).value.0 == key
  }

  /** Lines apply in order: loading a + b loads b on top of a's result. */
  lemma {:induction false} LoadConcat(a: seq<string>, b: seq<string>, vars: Vars)
    ensures LoadLines(a + b, vars) == LoadLines(b, LoadLines(a, vars))
  {
    if |a| == 0 {
      assert a + b == b;
    } else {
      assert (a + b)[1..] == a[1..] + b;
      LoadConcat(a[1..], b, ApplyLine(vars, a[0]));
    }
  }

  /** A key that no line assigns keeps its presence and its value. */
  lemma {:induction false} LoadUntouched(lines: seq<string>, vars: Vars, key: string)
    requires forall j :: 0 <= j < |lines| ==> !AssignsKey(lines[j], key)
    ensures key in LoadLines(lines, vars) <==> key in vars
    ensures key in vars ==> LoadLines(lines, vars)[key] == vars[key]
  {
    if |lines| > 0 {
      assert !AssignsKey(lines[0], key);
      LoadUntouched(lines[1..], ApplyLine(vars, lines[0]), key);
    }
  }

  /** The last line assigning a key decides its value. */
  lemma LastWins(lines: seq<string>, vars: Vars, i: nat, key: string, value: string)
    requires i < |lines| && Assignment(lines[i]) == Some((key, value))
    requires forall j :: i < j < |lines| ==> !AssignsKey(lines[j], key)
    ensures key in LoadLines(lines, vars) && LoadLines(lines, vars)[key] == value
  {
    assert lines == lines[..i] + [lines[i]] + lines[i + 1..];
    LoadConcat(lines[..i] + [lines[i]], lines[i + 1..], vars);
    LoadConcat(lines[..i], [lines[i]], vars);
    var before := LoadLines(lines[..i], vars);
    assert LoadLines([lines[i]], before) == before[key := value];
    LoadUntouched(lines[i + 1..], before[key := value], key);
  }

  /** `loadEnvFile`: with no `.env` file the variables are unchanged;
      otherwise its `\n`-separated lines are applied in order. */
  function LoadEnvFile(file: Option<string>, vars: Vars): (vars': Vars)
    ensures file.None? ==> vars' == vars
    ensures vars.Keys <= vars'.Keys
  {
    match file
    case None => vars
    case Some(content) => LoadLines(Split(content, '\n'), vars)
  }

  /** A file made of the given lines (none containing a line feed) applies
      exactly those lines, in order. */
  lemma LoadEnvFileLines(lines: seq<string>, vars: Vars)
    requires |lines| > 0
    requires forall k :: 0 <= k < |lines| ==> '\n' !in lines[k]
    ensures LoadEnvFile(Some(Join(lines, '\n')), vars) == LoadLines(lines, vars)
  {
    SplitJoin(lines, '\n');
  }

  /** The k6 command line used when none is given. */
  const DefaultArgs: seq<string> := ["run", "master.js"]

  /** `process.argv.slice(2)`, replaced by the default when empty: k6 is
      never started without arguments, and given arguments pass through
      unchanged. */
  function K6Args(argv: seq<string>): (args: seq<string>)
    ensures |args| > 0
    ensures |argv| > 2 ==> args == argv[2..]
    ensures |argv| <= 2 ==> args == DefaultArgs
  {
    var given := if |argv| > 2 then argv[2..] else [];
    if |given| == 0 then DefaultArgs else given
  }
}

=== FILE: environment.dfy ===
/** The environment label of the summary report in master.js: the base URL
    is read from the run's variables (with a built-in default), lowercased,
    and searched for "dev" and "stage"/"staging". The label becomes a CSS
    badge class. */
module Environment {
  import opened Text

  datatype Env = Dev | Staging | Production

  /** The base URL every script falls back to. */
  const DefaultBaseUrl: string := "https://api-dev.alemx.com"

  /** `__ENV.BASE_URL || default`: an unset or empty variable falls back to
      the default, so the base URL is never empty. */
  function BaseUrl(vars: map<string, string>): (url: string)
    ensures url != ""
    ensures "BASE_URL" in vars && vars["BASE_URL"] != "" ==> url == vars["BASE_URL"]
    ensures "BASE_URL" !in vars || vars["BASE_URL"] == "" ==> url == DefaultBaseUrl
  {
    if "BASE_URL" in vars && vars["BASE_URL"] != "" then vars["BASE_URL"] else DefaultBaseUrl
  }

  /** The lowercased URL mentions a staging host. */
  predicate MentionsStaging(u: string) {
    Contains(u, "stage") || Contains(u, "staging")
  }

  /** The classification. "dev" anywhere in the lowercased URL wins over
      everything; STAGING means "stage" or "staging" and no "dev";
      everything else is PRODUCTION. */
  function Classify(baseUrl: string): (env: Env)
    ensures env == Dev <==> Contains(Lower(baseUrl), "dev")
    ensures env == Staging <==> !Contains(Lower(baseUrl), "dev") && MentionsStaging(Lower(baseUrl))
    ensures env == Production <==> !Contains(Lower(baseUrl), "dev") && !MentionsStaging(Lower(baseUrl))
  {
    var u := Lower(baseUrl);
    if Contains(u, "dev") then Dev
    else if Contains(u, "stage") || Contains(u, "staging") then Staging
    else Production
  }

  /** Classification ignores case: "dev" written in any mix of cases
      anywhere in the URL makes it DEV, whatever else it contains. */
  lemma DevInAnyCase(baseUrl: string, i: nat)
    requires i + 3 <= |baseUrl|
    requires Lower(baseUrl[i..i + 3]) == "dev"
    ensures Classify(baseUrl) == Dev
  {
    var u := Lower(baseUrl);
    LowerSlice(baseUrl, i, i + 3);
    assert OccursAt(u, "dev", i);
    ContainsIff(u, "dev");
  }

  /** A staging URL whose host spells out "staging". */
  const StagingSampleUrl := "https://staging.myapp.io"

  /** The "staging" test is not redundant: this URL mentions "staging" but
      not "stage" (the letters differ after "stag"), and is labelled STAGING
      only because of the second test. The URL comes in as a parameter pinned
      to the constant, so the facts about it are proved once, about `u`. */
  lemma StagingWithoutStage(u: string)
    requires u == StagingSampleUrl
    ensures !Contains(Lower(u), "stage")
    ensures Classify(u) == Staging
  {
    SampleUrlFacts(u);
    LowerNoCapitals(u);
    MissingChar(u, "stage", 'e');
    MissingChar(u, "dev", 'v');
    ContainsIff(u, "staging");
  }

  lemma SampleUrlFacts(u: string)
    requires u == StagingSampleUrl
    ensures forall k :: 0 <= k < |u| ==> !('A' <= u[k] <= 'Z')
    ensures 'e' !in u && 'v' !in u
    ensures OccursAt(u, "staging", 8)
  {
  }

  /** Two URLs equal up to case get the same label. */
  lemma ClassifyIgnoresCase(u1: string, u2: string)
    requires Lower(u1) == Lower(u2)
    ensures Classify(u1) == Classify(u2)
  {
  }

  /** With BASE_URL unset or empty, the report says DEV. */
  lemma DefaultIsDev(vars: map<string, string>)
    requires "BASE_URL" !in vars || vars["BASE_URL"] == ""
    ensures Classify(BaseUrl(vars)) == Dev
  {
    var u := DefaultBaseUrl;
    assert u[12..15] == "dev";
    assert Lower(u[12..15]) == "dev";
    DevInAnyCase(u, 12);
  }

  /** The label as printed: `DEV`, `STAGING` or `PRODUCTION`. */
  function Label(env: Env): (text: string)
    ensures |text| > 0
    ensures forall k :: 0 <= k < |text| ==> 'A' <= text[k] <= 'Z'
  {
    match env
    case Dev => "DEV"
    case Staging => "STAGING"
    case Production => "PRODUCTION"
  }

  /** The three badge classes the report's style sheet defines. */
  const StyledBadges: set<string> := {"env-dev", "env-staging", "env-production"}

  /** `env-${environment.toLowerCase()}`: always one of the styled classes,
      the one named after the label. */
  function BadgeClass(env: Env): (cls: string)
    ensures cls in StyledBadges
    ensures env == Dev ==> cls == "env-dev"
    ensures env == Staging ==> cls == "env-staging"
    ensures env == Production ==> cls == "env-production"
  {
    LowerLabel(env);
    assert "env-" + "dev" == "env-dev";
    assert "env-" + "staging" == "env-staging";
    assert "env-" + "production" == "env-production";
    "env-" + Lower(Label(env))
  }

  lemma LowerLabel(env: Env)
    ensures env == Dev ==> Lower(Label(env)) == "dev"
    ensures env == Staging ==> Lower(Label(env)) == "staging"
    ensures env == Production ==> Lower(Label(env)) == "production"
  {
  }

  /** Distinct labels get distinct badges. */
  lemma BadgeInjective(e1: Env, e2: Env)
    requires BadgeClass(e1) == BadgeClass(e2)
    ensures e1 == e2
  {
  }
}

=== FILE: multipart.dfy ===
/** scenarios/createStory.js: the multipart/form-data body of the story
    upload and the Content-Type header that announces its boundary. The
    framing follows section 5.1.1 of RFC 2046 (dash-boundary lines, a close
    delimiter with two trailing dashes) and section 4.2 of RFC 7578 (one
    `Content-Disposition: form-data; name="..."` header per field). */
module Multipart {
  import opened Wrappers
  import opened Text
  import opened Environment

  /** A form field: its name and its (already stringified) value, in the
      order the fields object enumerates them. */
  type Field = (string, string)

  /** The header that opens every part, up to the field name. */
  const DispositionPrefix: string := "Content-Disposition: form-data; name=\""

  /** The dash-boundary that opens a part, without its line break. */
  function Delimiter(boundary: string): string {
    "--" + boundary
  }

  /** The close delimiter that ends the body, with its line break. */
  function CloseDelimiter(boundary: string): string {
    "--" + boundary + "--\r\n"
  }

  /** The header line naming the field, without its line break. */
  function HeaderLine(name: string): string {
    DispositionPrefix + name + "\""
  }

  /** What the first append of an iteration adds: the delimiter line. */
  function DelimiterLine(boundary: string): string {
    Delimiter(boundary) + "\r\n"
  }

  /** What the second append adds: the header line and the empty line
      that ends the part's headers. */
  function HeaderLines(name: string): string {
    HeaderLine(name) + "\r\n\r\n"
  }

  /** What the third append adds: the value line. */
  function ValueLine(value: string): string {
    value + "\r\n"
  }

  /** The part of one field, as one loop iteration appends it. */
  function Part(f: Field, boundary: string): string {
    DelimiterLine(boundary) + HeaderLines(f.0) + ValueLine(f.1)
  }

  /** The parts of all fields, in field order. */
  function Parts(fields: seq<Field>, boundary: string): string {
    if |fields| == 0 then "" else Part(fields[0], boundary) + Parts(fields[1..], boundary)
  }

  /** The whole body: the parts followed by the close delimiter. */
  function Encode(fields: seq<Field>, boundary: string): (body: string)
    ensures |body| >= |boundary| + 6
    ensures |fields| == 0 <==> |body| == |boundary| + 6
  {
    Parts(fields, boundary) + CloseDelimiter(boundary)
  }

  /** Every body opens with the dash-boundary, whether or not there are
      fields, and ends with the close delimiter. */
  lemma EncodeFrame(fields: seq<Field>, boundary: string)
    ensures StartsWith(Encode(fields, boundary), Delimiter(boundary))
    ensures var body := Encode(fields, boundary);
      |body| >= |CloseDelimiter(boundary)| &&
      body[|body| - |CloseDelimiter(boundary)|..] == CloseDelimiter(boundary)
  {
    var d := Delimiter(boundary);
    assert StartsWith(d + "\r\n", d);
    if |fields| > 0 {
      var f := fields[0];
      assert DelimiterLine(boundary) == d + "\r\n";
      StartsWithAppend(DelimiterLine(boundary), d, HeaderLines(f.0));
      StartsWithAppend(DelimiterLine(boundary) + HeaderLines(f.0), d, ValueLine(f.1));
      StartsWithAppend(Part(f, boundary), d, Parts(fields[1..], boundary));
      StartsWithAppend(Parts(fields, boundary), d, CloseDelimiter(boundary));
    } else {
      assert Encode(fields, boundary) == d + "--\r\n";
      assert StartsWith(d + "--\r\n", d);
    }
  }

  /** `buildMultipartFormData`, statement for statement: it appends one
      part per field and then the close delimiter, building Encode. */
  method BuildMultipartFormData(fields: seq<Field>, boundary: string) returns (data: string)
    ensures data == Encode(fields, boundary)
  {
    data := "";
    var i := 0;
    while i < |fields|
      invariant 0 <= i <= |fields|
      invariant data == Parts(fields[..i], boundary)
    {
      var (name, value) := fields[i];
      var before := data;
      data := data + DelimiterLine(boundary);
      data := data + HeaderLines(name);
      data := data + ValueLine(value);
      assert data == before + Part(fields[i], boundary);
      PartsSnoc(fields[..i], fields[i], boundary);
      assert fields[..i] + [fields[i]] == fields[..i + 1];
      i := i + 1;
    }
    assert fields[..i] == fields;
    data := data + CloseDelimiter(boundary);
  }

  /** Adding a field at the end appends its part. */
  lemma {:induction false} PartsSnoc(fields: seq<Field>, f: Field, boundary: string)
    ensures Parts(fields + [f], boundary) == Parts(fields, boundary) + Part(f, boundary)
    decreases |fields|
  {
    if |fields| == 0 {
      assert fields + [f] == [f];
    } else {
      assert (fields + [f])[1..] == fields[1..] + [f];
      PartsSnoc(fields[1..], f, boundary);
    }
  }

  /** No fields: the body is the close delimiter alone. */
  lemma EncodeEmpty(boundary: string)
    ensures Encode([], boundary) == "--" + boundary + "--\r\n"
  {
  }

  /** Appending a field inserts exactly its part just before the close
      delimiter and leaves everything before it as it was. */
  lemma AppendField(fields: seq<Field>, f: Field, boundary: string)
    ensures var body := Encode(fields, boundary);
      Encode(fields + [f], boundary) ==
        body[..|body| - |CloseDelimiter(boundary)|] + Part(f, boundary) + CloseDelimiter(boundary)
  {
    PartsSnoc(fields, f, boundary);
  }

  /** The body is, in field order, the part of each field, then the close
      delimiter: the first field's part comes first. */
  lemma EncodeCons(f: Field, rest: seq<Field>, boundary: string)
    ensures Encode([f] + rest, boundary) == Part(f, boundary) + Encode(rest, boundary)
  {
    assert ([f] + rest)[1..] == rest;
  }

  /** Size of the parts: each field costs the boundary, its name and its
      value, plus 49 characters of fixed framing. */
  function PartsSize(fields: seq<Field>, boundary: string): nat {
    if |fields| == 0 then 0
    else PartsSize(fields[1..], boundary) + |boundary| + 49 + |fields[0].0| + |fields[0].1|
  }

  /** The length of the body: the close delimiter (the boundary plus 6)
      plus the size of every part. */
  lemma {:induction false} EncodeLength(fields: seq<Field>, boundary: string)
    ensures |Encode(fields, boundary)| == |boundary| + 6 + PartsSize(fields, boundary)
    decreases |fields|
  {
    if |fields| > 0 {
      EncodeCons(fields[0], fields[1..], boundary);
      assert [fields[0]] + fields[1..] == fields;
      EncodeLength(fields[1..], boundary);
    }
  }

  // Reading a body back.

  /** `s` contains no CRLF pair. */
  predicate NoCrlf(s: string) {
    forall i :: 0 <= i < |s| - 1 ==> !(s[i] == '\r' && s[i + 1] == '\n')
  }

  /** Cuts `s` at its first CRLF into the line before and the rest after. */
  function TakeLine(s: string): (r: Option<(string, string)>)
    ensures r.Some? ==> s == r.value.0 + "\r\n" + r.value.1
  {
    if |s| < 2 then None
    else if s[0] == '\r' && s[1] == '\n' then Some(("", s[2..]))
    else
      match TakeLine(s[1..])
      case None => None
      case Some((line, rest)) => Some(([s[0]] + line, rest))
  }

  /** A line without CRLF followed by CRLF is taken whole. */
  lemma {:induction false} TakeLineOf(x: string, y: string)
    requires NoCrlf(x)
    ensures TakeLine(x + "\r\n" + y) == Some((x, y))
  {
    var s := x + "\r\n" + y;
    if |x| == 0 {
      assert s == "\r\n" + y;
    } else {
      assert s[1..] == x[1..] + "\r\n" + y;
      assert !(s[0] == '\r' && s[1] == '\n') by {
        if |x| > 1 {
          assert !(x[0] == '\r' && x[1] == '\n');
        }
      }
      TakeLineOf(x[1..], y);
      assert [x[0]] + x[1..] == x;
    }
  }

  /** Joining two CRLF-free texts creates no CRLF unless a CR meets an LF at the seam. */
  lemma NoCrlfConcat(a: string, c: string)
    requires NoCrlf(a) && NoCrlf(c)
    requires |a| == 0 || |c| == 0 || a[|a| - 1] != '\r' || c[0] != '\n'
    ensures NoCrlf(a + c)
  {
    var s := a + c;
    forall i | 0 <= i < |s| - 1 ensures !(s[i] == '\r' && s[i + 1] == '\n') {
      if i + 1 < |a| {
        assert s[i] == a[i] && s[i + 1] == a[i + 1];
      } else if i >= |a| {
        assert s[i] == c[i - |a|] && s[i + 1] == c[i + 1 - |a|];
      }
    }
  }

  /** The field name in a Content-Disposition header line. */
  function HeaderName(h: string): Option<string> {
    if |h| > |DispositionPrefix| && StartsWith(h, DispositionPrefix) && h[|h| - 1] == '"'
    then Some(h[|DispositionPrefix|..|h| - 1])
    else None
  }

  /** Cuts a body into its CRLF-terminated lines; None when text follows the
      last CRLF. */
  function BodyLines(body: string): Option<seq<string>>
    decreases |body|
  {
    if body == "" then Some([])
    else
      match TakeLine(body)
      case None => None
      case Some((line, rest)) =>
        match BodyLines(rest)
        case None => None
        case Some(more) => Some([line] + more)
  }

  /** A line a receiver takes for a boundary: it begins with the
      dash-boundary "--" + boundary, whatever follows (section 5.1.1 of
      RFC 2046). */
  predicate IsBoundaryLine(line: string, boundary: string) {
    StartsWith(line, Delimiter(boundary))
  }

  /** The index of the first boundary line at or after `from`, or the number
      of lines when there is none. */
  function NextBoundary(lines: seq<string>, boundary: string, from: nat): (j: nat)
    requires from <= |lines|
    ensures from <= j <= |lines|
    ensures forall k :: from <= k < j ==> !IsBoundaryLine(lines[k], boundary)
    ensures j < |lines| ==> IsBoundaryLine(lines[j], boundary)
    decreases |lines| - from
  {
    if from == |lines| || IsBoundaryLine(lines[from], boundary) then from
    else NextBoundary(lines, boundary, from + 1)
  }

  /** Reads the parts between boundary lines: each part runs from a delimiter
      line to the next boundary line and must be a Content-Disposition header,
      an empty line and one value line; the close delimiter line must be the
      last line. */
  function ReadParts(lines: seq<string>, boundary: string): Option<seq<Field>>
    decreases |lines|
  {
    if |lines| == 0 then None
    else if lines[0] == Delimiter(boundary) + "--" then
      if |lines| == 1 then Some([]) else None
    else if lines[0] != Delimiter(boundary) then None
    else
      var j := NextBoundary(lines, boundary, 1);
      if j != 4 || lines[2] != "" then None
      else
        match HeaderName(lines[1])
        case None => None
        case Some(name) =>
          match ReadParts(lines[4..], boundary)
          case None => None
          case Some(more) => Some([(name, lines[3])] + more)
  }

  /** Reads a body as a receiver does: cut it into lines, then cut the lines
      at the boundary lines. */
  function Decode(body: string, boundary: string): Option<seq<Field>> {
    match BodyLines(body)
    case None => None
    case Some(lines) => ReadParts(lines, boundary)
  }

  /** What the body can carry unambiguously: no CRLF in the boundary, in any
      name or in any value, and no value that a receiver would take for a
      boundary line. */
  predicate Encodable(fields: seq<Field>, boundary: string) {
    && NoCrlf(boundary)
    && forall k :: 0 <= k < |fields| ==>
      && NoCrlf(fields[k].0) && NoCrlf(fields[k].1)
      && !IsBoundaryLine(fields[k].1, boundary)
  }

  lemma DashesBoundary(boundary: string, suffix: string)
    requires NoCrlf(boundary) && NoCrlf(suffix)
    requires |suffix| == 0 || suffix[0] != '\n'
    ensures NoCrlf("--" + boundary + suffix)
  {
    NoCrlfConcat("--", boundary);
    if |boundary| > 0 {
      NoCrlfConcat("--" + boundary, suffix);
    } else {
      assert "--" + boundary + suffix == "--" + suffix;
      NoCrlfConcat("--", suffix);
    }
  }

  /** The header line adds no CRLF to a CRLF-free name. */
  lemma HeaderLineNoCrlf(name: string)
    requires NoCrlf(name)
    ensures NoCrlf(HeaderLine(name))
  {
    assert NoCrlf(DispositionPrefix);
    NoCrlfConcat(DispositionPrefix, name);
    NoCrlfConcat(DispositionPrefix + name, "\"");
  }

  /** The name written into a header line is read back from it. */
  lemma HeaderNameOf(name: string)
    ensures HeaderName(HeaderLine(name)) == Some(name)
  {
    var h := HeaderLine(name);
    assert h[..|DispositionPrefix|] == DispositionPrefix;
    assert h[|DispositionPrefix|..|h| - 1] == name;
  }

  /** A header line is never taken for a boundary line: it starts with 'C'
      where a delimiter starts with '-'. */
  lemma HeaderLineNotBoundary(name: string, boundary: string)
    ensures !IsBoundaryLine(HeaderLine(name), boundary)
  {
    assert HeaderLine(name)[0] == 'C';
  }

  /** One part written line by line. Each line is bracketed with everything
      after it, the shape in which `BodyLinesCons` takes one line at a time. */
  lemma PartLines(f: Field, boundary: string, tail: string)
    ensures Part(f, boundary) + tail ==
      Delimiter(boundary) + "\r\n" + (HeaderLine(f.0) + "\r\n" + ("" + "\r\n" + (f.1 + "\r\n" + tail)))
  {
  }

  /** A CRLF-free line followed by CRLF is the first line of the body. */
  lemma BodyLinesCons(x: string, rest: string)
    requires NoCrlf(x)
    ensures BodyLines(x + "\r\n" + rest) ==
      if BodyLines(rest).Some? then Some([x] + BodyLines(rest).value) else None
  {
    assert |x + "\r\n" + rest| > 0;
    TakeLineOf(x, rest);
  }

  /** The lines of the parts for `fields`, without line ends. */
  function FieldLines(fields: seq<Field>, boundary: string): (lines: seq<string>)
    ensures |lines| == 4 * |fields|
  {
    if |fields| == 0 then []
    else [Delimiter(boundary), HeaderLine(fields[0].0), "", fields[0].1] + FieldLines(fields[1..], boundary)
  }

  lemma EncodableRest(fields: seq<Field>, boundary: string)
    requires |fields| > 0 && Encodable(fields, boundary)
    ensures Encodable(fields[1..], boundary)
  {
    var rest := fields[1..];
    forall k | 0 <= k < |rest|
      ensures NoCrlf(rest[k].0) && NoCrlf(rest[k].1) && !IsBoundaryLine(rest[k].1, boundary)
    {
      assert rest[k] == fields[k + 1];
    }
  }

  /** One part's text, ahead of a tail that cuts into `ls`, cuts into the
      part's four lines followed by `ls`. */
  lemma PartBodyLines(f: Field, boundary: string, tail: string, ls: seq<string>)
    requires NoCrlf(boundary) && NoCrlf(f.0) && NoCrlf(f.1)
    requires BodyLines(tail) == Some(ls)
    ensures BodyLines(Part(f, boundary) + tail) ==
      Some([Delimiter(boundary), HeaderLine(f.0), "", f.1] + ls)
  {
    var t3 := f.1 + "\r\n" + tail;
    BodyLinesCons(f.1, tail);
    var t2 := "" + "\r\n" + t3;
    BodyLinesCons("", t3);
    var t1 := HeaderLine(f.0) + "\r\n" + t2;
    HeaderLineNoCrlf(f.0);
    BodyLinesCons(HeaderLine(f.0), t2);
    DashesBoundary(boundary, "");
    assert "--" + boundary + "" == Delimiter(boundary);
    BodyLinesCons(Delimiter(boundary), t1);
    PartLines(f, boundary, tail);
    assert [Delimiter(boundary)] + ([HeaderLine(f.0)] + ([""] + ([f.1] + ls)))
      == [Delimiter(boundary), HeaderLine(f.0), "", f.1] + ls;
  }

  /** An encodable body is cut into the parts' lines and the close
      delimiter line. */
  lemma {:induction false} EncodeLines(fields: seq<Field>, boundary: string)
    requires Encodable(fields, boundary)
    ensures BodyLines(Encode(fields, boundary)) ==
      Some(FieldLines(fields, boundary) + [Delimiter(boundary) + "--"])
    decreases |fields|
  {
    var close := Delimiter(boundary) + "--";
    if |fields| == 0 {
      DashesBoundary(boundary, "--");
      assert "--" + boundary + "--" == close;
      assert Encode(fields, boundary) == close + "\r\n" + "";
      assert BodyLines("") == Some([]);
      BodyLinesCons(close, "");
      assert [close] + [] == FieldLines(fields, boundary) + [close];
    } else {
      var f, rest := fields[0], fields[1..];
      assert fields == [f] + rest;
      EncodeCons(f, rest, boundary);
      EncodableRest(fields, boundary);
      EncodeLines(rest, boundary);
      var more := FieldLines(rest, boundary) + [close];
      PartBodyLines(f, boundary, Encode(rest, boundary), more);
      assert [Delimiter(boundary), HeaderLine(f.0), "", f.1] + more
        == FieldLines(fields, boundary) + [close];
    }
  }

  /** The parts' lines followed by the close delimiter line read back as the
      fields, in order. */
  lemma {:induction false} ReadFieldLines(fields: seq<Field>, boundary: string)
    requires Encodable(fields, boundary)
    ensures ReadParts(FieldLines(fields, boundary) + [Delimiter(boundary) + "--"], boundary) == Some(fields)
    decreases |fields|
  {
    var close := Delimiter(boundary) + "--";
    var lines := FieldLines(fields, boundary) + [close];
    if |fields| == 0 {
      assert lines == [close];
    } else {
      var f, rest := fields[0], fields[1..];
      var more := FieldLines(rest, boundary) + [close];
      assert lines == [Delimiter(boundary), HeaderLine(f.0), "", f.1] + more;
      assert lines[4..] == more;
      assert lines[0] != close;
      HeaderLineNotBoundary(f.0, boundary);
      assert !IsBoundaryLine(f.1, boundary);
      assert IsBoundaryLine(more[0], boundary) by {
        if |rest| > 0 {
          assert more[0] == Delimiter(boundary);
        } else {
          assert more[0] == close;
        }
      }
      assert NextBoundary(lines, boundary, 3) == 4;
      assert NextBoundary(lines, boundary, 1) == 4;
      HeaderNameOf(f.0);
      EncodableRest(fields, boundary);
      ReadFieldLines(rest, boundary);
      assert fields == [(f.0, f.1)] + rest;
    }
  }

  /** Reading back recovers exactly the fields, in order, whenever no
      boundary, name or value holds a CRLF and no value begins with the
      dash-boundary. */
  lemma DecodeEncode(fields: seq<Field>, boundary: string)
    requires Encodable(fields, boundary)
    ensures Decode(Encode(fields, boundary), boundary) == Some(fields)
  {
    EncodeLines(fields, boundary);
    ReadFieldLines(fields, boundary);
  }

  // The boundary and the Content-Type header.

  /** A character section 5.1.1 of RFC 2046 allows in a boundary. */
  predicate BoundaryChar(c: char) {
    || 'a' <= c <= 'z' || 'A' <= c <= 'Z' || '0' <= c <= '9'
    || c == '\'' || c == '(' || c == ')' || c == '+' || c == '_' || c == ','
    || c == '-' || c == '.' || c == '/' || c == ':' || c == '=' || c == '?' || c == ' '
  }

  /** A boundary as section 5.1.1 of RFC 2046 defines it: 1 to 70 boundary
      characters, not ending in a space. */
  predicate ValidBoundary(b: string) {
    && 1 <= |b| <= 70
    && (forall i :: 0 <= i < |b| ==> BoundaryChar(b[i]))
    && b[|b| - 1] != ' '
  }

  /** A valid boundary never holds a line break, so it can frame any body
      whose names and values hold none either. */
  lemma ValidBoundaryNoCrlf(b: string)
    requires ValidBoundary(b)
    ensures NoCrlf(b)
  {
    forall i | 0 <= i < |b| - 1 ensures !(b[i] == '\r' && b[i + 1] == '\n') {
      assert BoundaryChar(b[i]);
    }
  }

  const ContentTypePrefix: string := "multipart/form-data; boundary="

  /** The Content-Type header value sent with the body. */
  function ContentType(boundary: string): (ct: string)
    ensures StartsWith(ct, "multipart/form-data;")
    ensures |ct| == |ContentTypePrefix| + |boundary| && ct[|ContentTypePrefix|..] == boundary
  {
    ContentTypePrefix + boundary
  }

  /** The boundary a receiver reads from a multipart Content-Type value. */
  function BoundaryParameter(contentType: string): Option<string> {
    if StartsWith(contentType, ContentTypePrefix)
    then Some(contentType[|ContentTypePrefix|..])
    else None
  }

  /** The header announces exactly the boundary the body is framed with. */
  lemma BoundaryParameterOf(boundary: string)
    ensures BoundaryParameter(ContentType(boundary)) == Some(boundary)
  {
    assert ContentType(boundary)[..|ContentTypePrefix|] == ContentTypePrefix;
  }

  // The story upload.

  const StoryBoundary: string := "----WebKitFormBoundary7MA4YWxkTrZu0gW"

  /** The JSON text of the story location, written member by member. */
  const StoryLocation: string :=
    "{\"name\":\"testing loc\"," + "\"city\":\"Lviv\"," + "\"country\":\"Ukraine\","
    + "\"latitude\":40.678," + "\"longitude\":45.989}"

  /** The story form: the location as JSON text, the contents list as JSON
      text and the comment switch, in declaration order. */
  const StoryFields: seq<Field> := [
    ("location", StoryLocation),
    ("contents", "[\"1\"]"),
    ("allow_comments", "true")
  ]

  /** The POST that `createStory` sends. */
  datatype StoryRequest = StoryRequest(url: string, contentType: string, token: string, body: string)

  function CreateStory(vars: map<string, string>, token: string): (req: StoryRequest)
    ensures req.url == BaseUrl(vars) + "/story"
    ensures BoundaryParameter(req.contentType) == Some(StoryBoundary)
    ensures req.token == token
  {
    BoundaryParameterOf(StoryBoundary);
    StoryRequest(BaseUrl(vars) + "/story", ContentType(StoryBoundary), token,
                 Encode(StoryFields, StoryBoundary))
  }

  /** The story boundary is a valid RFC 2046 boundary. */
  lemma StoryBoundaryValid()
    ensures ValidBoundary(StoryBoundary)
  {
  }

  /** No carriage return at all. */
  predicate NoCr(s: string) {
    forall i :: 0 <= i < |s| ==> s[i] != '\r'
  }

  lemma NoCrConcat(a: string, c: string)
    requires NoCr(a) && NoCr(c)
    ensures NoCr(a + c)
  {
    forall i | 0 <= i < |a + c| ensures (a + c)[i] != '\r' {
      if i >= |a| {
        assert (a + c)[i] == c[i - |a|];
      }
    }
  }

  lemma NoCrNoCrlf(s: string)
    requires NoCr(s)
    ensures NoCrlf(s)
  {
  }

  lemma StoryLocationNoCrlf()
    ensures NoCrlf(StoryLocation)
  {
    var p1, p2, p3 := "{\"name\":\"testing loc\",", "\"city\":\"Lviv\",", "\"country\":\"Ukraine\",";
    var p4, p5 := "\"latitude\":40.678,", "\"longitude\":45.989}";
    assert NoCr(p1) && NoCr(p2) && NoCr(p3) && NoCr(p4) && NoCr(p5);
    NoCrConcat(p1, p2);
    NoCrConcat(p1 + p2, p3);
    NoCrConcat(p1 + p2 + p3, p4);
    NoCrConcat(p1 + p2 + p3 + p4, p5);
    NoCrNoCrlf(StoryLocation);
  }

  lemma StoryFieldsEncodable()
    ensures Encodable(StoryFields, StoryBoundary)
  {
    StoryBoundaryValid();
    ValidBoundaryNoCrlf(StoryBoundary);
    StoryLocationNoCrlf();
    assert NoCr("location") && NoCr("[\"1\"]") && NoCr("contents") && NoCr("allow_comments") && NoCr("true");
    NotDashLed(StoryLocation, StoryBoundary);
    NotDashLed("[\"1\"]", StoryBoundary);
    NotDashLed("true", StoryBoundary);
  }

  /** A line that does not begin with '-' is not a boundary line. */
  lemma NotDashLed(v: string, boundary: string)
    requires |v| > 0 && v[0] != '-'
    ensures !IsBoundaryLine(v, boundary)
  {
    assert Delimiter(boundary)[0] == '-';
  }

  /** A receiver that takes the boundary from the header and cuts the body at
      its boundary lines gets back the three story fields, in order. */
  lemma StoryBodyReadsBack(vars: map<string, string>, token: string)
    ensures var req := CreateStory(vars, token);
      && BoundaryParameter(req.contentType) == Some(StoryBoundary)
      && Decode(req.body, StoryBoundary) == Some(StoryFields)
  {
    StoryFieldsEncodable();
    DecodeEncode(StoryFields, StoryBoundary);
  }
}

=== FILE: text.dfy ===
/** String primitives that the scripts take from JavaScript's String
    prototype: `trim`, `toLowerCase`, `includes`, `startsWith`, `split` with a
    one-character separator, and `Array.prototype.join`. Whitespace and case
    are ASCII only. */
module Text {

  /** The ASCII characters that `String.prototype.trim` removes: space, tab,
      line feed, vertical tab, form feed and carriage return. */
  predicate IsSpace(c: char) {
    c == ' ' || c == '\t' || c == '\n' || c == '\U{0B}' || c == '\U{0C}' || c == '\r'
  }

  predicate AllSpace(s: string) {
    forall k :: 0 <= k < |s| ==> IsSpace(s[k])
  }

  /** Neither end of `s` is whitespace. */
  predicate IsTrimmed(s: string) {
    |s| == 0 || (!IsSpace(s[0]) && !IsSpace(s[|s| - 1]))
  }

  /** Drops the leading whitespace; what is left does not start with it.
      TrimStartShape says what was dropped. */
  function TrimStart(s: string): (r: string)
    ensures |r| <= |s|
    ensures |r| == 0 || !IsSpace(r[0])
  {
    if |s| > 0 && IsSpace(s[0]) then TrimStart(s[1..]) else s
  }

  /** Drops the trailing whitespace; what is left does not end with it.
      TrimEndShape says what was dropped. */
  function TrimEnd(s: string): (r: string)
    ensures |r| <= |s|
    ensures |r| == 0 || !IsSpace(r[|r| - 1])
  {
    if |s| > 0 && IsSpace(s[|s| - 1]) then TrimEnd(s[..|s| - 1]) else s
  }

  /** TrimStart keeps a suffix of `s` and drops only whitespace. */
  lemma {:induction false} TrimStartShape(s: string)
    ensures TrimStart(s) == s[|s| - |TrimStart(s)|..]
    ensures AllSpace(s[..|s| - |TrimStart(s)|])
    decreases |s|
  {
    if |s| > 0 && IsSpace(s[0]) {
      TrimStartShape(s[1..]);
      var n := |s| - |TrimStart(s)|;
      assert s[1..][..n - 1] == s[1..n];
    }
  }

  /** TrimEnd keeps a prefix of `s` and drops only whitespace. */
  lemma {:induction false} TrimEndShape(s: string)
    ensures TrimEnd(s) == s[..|TrimEnd(s)|]
    ensures AllSpace(s[|TrimEnd(s)|..])
    decreases |s|
  {
    if |s| > 0 && IsSpace(s[|s| - 1]) {
      var s' := s[..|s| - 1];
      TrimEndShape(s');
      var n := |TrimEnd(s)|;
      assert s'[n..] == s[n..|s| - 1];
    }
  }

  /** `String.prototype.trim`. Its result never has whitespace at either
      end; TrimSpec says which slice of `s` it is. */
  function Trim(s: string): (r: string)
    ensures |r| <= |s|
    ensures IsTrimmed(r)
  {
    TrimEndShape(TrimStart(s));
    TrimEnd(TrimStart(s))
  }

  /** The trim of `s` is the slice of `s` left after removing whitespace
      from both ends, and it is empty exactly when `s` is all whitespace. */
  lemma TrimSpec(s: string)
    ensures exists i :: TrimmedAt(s, Trim(s), i)
    ensures Trim(s) == "" <==> AllSpace(s)
  {
    TrimSlice(s);
    TrimEmpty(s);
    assert TrimmedAt(s, Trim(s), |s| - |TrimStart(s)|);
  }

  /** `r` is the slice of `s` at offset `i` with only whitespace around it. */
  predicate TrimmedAt(s: string, r: string, i: int) {
    0 <= i <= |s| - |r| && r == s[i..i + |r|] && AllSpace(s[..i]) && AllSpace(s[i + |r|..])
  }

  lemma TrimSlice(s: string)
    ensures TrimmedAt(s, TrimEnd(TrimStart(s)), |s| - |TrimStart(s)|)
  {
    TrimStartShape(s);
    TrimEndShape(TrimStart(s));
    var a := TrimStart(s);
    var r := TrimEnd(a);
    var i := |s| - |a|;
    assert s[i + |r|..] == a[|r|..];
  }

  lemma TrimEmpty(s: string)
    ensures TrimEnd(TrimStart(s)) == "" <==> AllSpace(s)
  {
    TrimStartShape(s);
    TrimEndShape(TrimStart(s));
    var a := TrimStart(s);
    var i := |s| - |a|;
    if AllSpace(s) {
      AllSpaceSuffix(s, i);
    }
    if TrimEnd(a) == "" {
      assert AllSpace(a);
      AllSpaceConcat(s[..i], a);
      assert s == s[..i] + a;
    }
  }

  lemma AllSpaceSuffix(s: string, i: int)
    requires AllSpace(s) && 0 <= i <= |s|
    ensures AllSpace(s[i..])
  {
  }

  lemma AllSpaceConcat(x: string, y: string)
    requires AllSpace(x) && AllSpace(y)
    ensures AllSpace(x + y)
  {
  }

  /** Trimming a string that is already trimmed changes nothing; in
      particular `Trim` is idempotent. */
  lemma TrimTrimmed(s: string)
    requires IsTrimmed(s)
    ensures Trim(s) == s
  {
  }

  /** Trim removes exactly the whitespace padding around a trimmed,
      non-empty core. */
  lemma TrimPadded(left: string, core: string, right: string)
    requires AllSpace(left) && AllSpace(right)
    requires core != "" && IsTrimmed(core)
    ensures Trim(left + core + right) == core
  {
    var s := left + core + right;
    assert s == left + (core + right);
    assert (core + right)[0] == core[0];
    TrimStartPadded(left, core + right);
    TrimEndPadded(core, right);
    assert Trim(s) == TrimEnd(TrimStart(s));
  }

  lemma {:induction false} TrimStartPadded(left: string, rest: string)
    requires AllSpace(left)
    requires rest != "" && !IsSpace(rest[0])
    ensures TrimStart(left + rest) == rest
  {
    if left != [] {
      assert (left + rest)[1..] == left[1..] + rest;
      TrimStartPadded(left[1..], rest);
    } else {
      assert left + rest == rest;
    }
  }

  lemma {:induction false} TrimEndPadded(rest: string, right: string)
    requires AllSpace(right)
    requires rest != "" && !IsSpace(rest[|rest| - 1])
    ensures TrimEnd(rest + right) == rest
    decreases |right|
  {
    if right != [] {
      var r' := right[..|right| - 1];
      assert (rest + right)[..|rest + right| - 1] == rest + r';
      TrimEndPadded(rest, r');
    } else {
      assert rest + right == rest;
    }
  }

  function LowerChar(c: char): (d: char)
    ensures 'A' <= c <= 'Z' ==> 'a' <= d <= 'z' && d as int == c as int + 32
    ensures !('A' <= c <= 'Z') ==> d == c
  {
    if 'A' <= c <= 'Z' then (c as int + 32) as char else c
  }

  /** `String.prototype.toLowerCase` restricted to ASCII letters. */
  function Lower(s: string): (r: string)
    ensures |r| == |s|
    ensures forall k :: 0 <= k < |s| ==> !('A' <= r[k] <= 'Z')
    ensures forall k :: 0 <= k < |s| && !('A' <= s[k] <= 'Z') ==> r[k] == s[k]
    ensures forall k :: 0 <= k < |s| && 'A' <= s[k] <= 'Z' ==> r[k] as int == s[k] as int + 32
  {
    seq(|s|, k requires 0 <= k < |s| => LowerChar(s[k]))
  }

  /** A string without capital letters is its own lowercase. */
  lemma LowerNoCapitals(s: string)
    requires forall k :: 0 <= k < |s| ==> !('A' <= s[k] <= 'Z')
    ensures Lower(s) == s
  {
  }

  /** Lowering commutes with slicing. */
  lemma LowerSlice(s: string, i: int, j: int)
    requires 0 <= i <= j <= |s|
    ensures Lower(s)[i..j] == Lower(s[i..j])
  {
  }

  predicate StartsWith(s: string, p: string) {
    |p| <= |s| && s[..|p|] == p
  }

  /** A prefix stays a prefix when text is appended. */
  lemma StartsWithAppend(s: string, p: string, y: string)
    requires StartsWith(s, p)
    ensures StartsWith(s + y, p)
  {
    assert (s + y)[..|p|] == s[..|p|];
  }

  /** `String.prototype.includes`, written as a left-to-right scan. */
  predicate Contains(s: string, p: string)
    ensures Contains(s, p) ==> |p| <= |s|
    decreases |s|
  {
    StartsWith(s, p) || (|s| > 0 && Contains(s[1..], p))
  }

  /** `p` occurs in `s` starting at index `i`. */
  predicate OccursAt(s: string, p: string, i: int) {
    0 <= i <= |s| - |p| && s[i..i + |p|] == p
  }

  /** The scan finds `p` exactly when `p` occurs as a slice of `s`. */
  lemma {:induction false} ContainsIff(s: string, p: string)
    ensures Contains(s, p) <==> exists i :: OccursAt(s, p, i)
    decreases |s|
  {
    if StartsWith(s, p) {
      assert OccursAt(s, p, 0);
    }
    if OccursAt(s, p, 0) {
      assert StartsWith(s, p);
    }
    if |s| > 0 {
      ContainsIff(s[1..], p);
      if Contains(s[1..], p) {
        var i :| OccursAt(s[1..], p, i);
        assert s[i + 1..i + 1 + |p|] == s[1..][i..i + |p|];
        assert OccursAt(s, p, i + 1);
      }
      if i :| OccursAt(s, p, i) && i > 0 {
        assert s[1..][i - 1..i - 1 + |p|] == s[i..i + |p|];
        assert OccursAt(s[1..], p, i - 1);
      }
    }
  }

  /** A string lacking one of the characters of `p` does not contain `p`. */
  lemma MissingChar(s: string, p: string, c: char)
    requires c in p && c !in s
    ensures !Contains(s, p)
  {
    var j :| 0 <= j < |p| && p[j] == c;
    forall i | 0 <= i <= |s| - |p| ensures !OccursAt(s, p, i) {
      assert s[i..i + |p|][j] == s[i + j];
    }
    ContainsIff(s, p);
  }

  /** `String.prototype.split` with a one-character separator: cuts at every
      occurrence, so there is at least one part; the empty string gives one
      empty part. */
  function Split(s: string, sep: char): (parts: seq<string>)
    ensures |parts| >= 1
  {
    if |s| == 0 then [""]
    else
      var rest := Split(s[1..], sep);
      if s[0] == sep then [""] + rest
      else [[s[0]] + rest[0]] + rest[1..]
  }

  /** `Array.prototype.join` with a one-character separator. */
  function Join(parts: seq<string>, sep: char): (s: string)
    ensures |parts| > 0 ==> StartsWith(s, parts[0])
  {
    if |parts| == 0 then ""
    else if |parts| == 1 then parts[0]
    else parts[0] + [sep] + Join(parts[1..], sep)
  }

  /** `i` is the position of the first `sep` in `s`. */
  predicate FirstAt(s: string, sep: char, i: int) {
    0 <= i < |s| && s[i] == sep && sep !in s[..i]
  }

  /** Every character that occurs has a first occurrence. */
  lemma {:induction false} FirstExists(s: string, c: char)
    requires c in s
    ensures exists i :: FirstAt(s, c, i)
  {
    if s[0] == c {
      assert FirstAt(s, c, 0);
    } else {
      assert c in s[1..] by {
        var k :| 0 <= k < |s| && s[k] == c;
        assert s[1..][k - 1] == c;
      }
      FirstExists(s[1..], c);
      var i :| FirstAt(s[1..], c, i);
      assert s[..i + 1] == [s[0]] + s[1..][..i];
      assert FirstAt(s, c, i + 1);
    }
  }

  /** A string without the separator is a single part. */
  lemma {:induction false} SplitNone(s: string, sep: char)
    requires sep !in s
    ensures Split(s, sep) == [s]
  {
    if |s| > 0 {
      assert sep !in s[1..] by {
        assert forall k :: 0 <= k < |s| - 1 ==> s[1..][k] == s[k + 1];
      }
      SplitNone(s[1..], sep);
      assert [s[0]] + s[1..] == s;
    }
  }

  /** Splitting cuts off the text before the first separator as the first
      part, and splits the rest after it. */
  lemma {:induction false} SplitAtFirst(s: string, sep: char, i: int)
    requires FirstAt(s, sep, i)
    ensures Split(s, sep) == [s[..i]] + Split(s[i + 1..], sep)
  {
    if i > 0 {
      assert s[0] == s[..i][0];
      assert FirstAt(s[1..], sep, i - 1) by {
        assert s[1..][..i - 1] == s[1..i];
        assert forall k :: 0 <= k < i - 1 ==> s[1..i][k] == s[..i][k + 1];
      }
      SplitAtFirst(s[1..], sep, i - 1);
      assert [s[0]] + s[1..][..i - 1] == s[..i];
      assert s[1..][i..] == s[i + 1..];
    }
  }

  /** No part contains the separator. */
  lemma {:induction false} SplitPartsFree(s: string, sep: char)
    ensures forall k :: 0 <= k < |Split(s, sep)| ==> sep !in Split(s, sep)[k]
  {
    if |s| > 0 {
      SplitPartsFree(s[1..], sep);
    }
  }

  /** There is one more part than there are separators. */
  lemma {:induction false} SplitCount(s: string, sep: char)
    ensures |Split(s, sep)| == multiset(s)[sep] + 1
  {
    if |s| > 0 {
      SplitCount(s[1..], sep);
      assert s == [s[0]] + s[1..];
      assert multiset(s) == multiset{s[0]} + multiset(s[1..]);
    }
  }

  lemma JoinCons(c: char, x: string, rest: seq<string>, sep: char)
    ensures Join([[c] + x] + rest, sep) == [c] + Join([x] + rest, sep)
  {
    if |rest| > 0 {
      assert ([[c] + x] + rest)[1..] == rest;
      assert ([x] + rest)[1..] == rest;
    }
  }

  /** Joining the parts of a split gives back the original string. */
  lemma {:induction false} JoinSplit(s: string, sep: char)
    ensures Join(Split(s, sep), sep) == s
  {
    if |s| > 0 {
      var rest := Split(s[1..], sep);
      JoinSplit(s[1..], sep);
      if s[0] == sep {
        assert ([""] + rest)[1..] == rest;
      } else {
        JoinCons(s[0], rest[0], rest[1..], sep);
        assert [rest[0]] + rest[1..] == rest;
      }
      assert s == [s[0]] + s[1..];
    }
  }

  /** Splitting a join of separator-free parts gives back the parts. */
  lemma {:induction false} SplitJoin(parts: seq<string>, sep: char)
    requires |parts| > 0
    requires forall k :: 0 <= k < |parts| ==> sep !in parts[k]
    ensures Split(Join(parts, sep), sep) == parts
  {
    if |parts| == 1 {
      SplitNone(parts[0], sep);
    } else {
      var head, rest := parts[0], Join(parts[1..], sep);
      var s := head + [sep] + rest;
      assert Join(parts, sep) == s;
      assert s[..|head|] == head;
      assert s[|head| + 1..] == rest;
      SplitAtFirst(s, sep, |head|);
      SplitJoin(parts[1..], sep);
      assert parts == [head] + parts[1..];
    }
  }

  /** Splitting distributes over a separator placed between two strings. */
  lemma {:induction false} SplitConcat(a: string, b: string, sep: char)
    ensures Split(a + [sep] + b, sep) == Split(a, sep) + Split(b, sep)
  {
    var s := a + [sep] + b;
    if |a| == 0 {
      assert s == [sep] + b;
      assert s[1..] == b;
    } else {
      assert s[0] == a[0];
      assert s[1..] == a[1..] + [sep] + b;
      SplitConcat(a[1..], b, sep);
    }
  }
}

=== FILE: workload.dfy ===
/** The per-iteration logic of the default function in master.js: pick the
    virtual user's account, then pick one scenario from a uniform draw
    `r` in [0, 1). The draw is a parameter; reals are exact. */
module Workload {
  import opened Wrappers
  import Accounts

  datatype Scenario = ScrollFeed | CreatePost | CreateStory

  /** The scenarios in threshold order: scroll < post < story. */
  function Rank(s: Scenario): nat {
    match s
    case ScrollFeed => 0
    case CreatePost => 1
    case CreateStory => 2
  }

  /** The `if / else if / else` chain on the draw. Every draw gives exactly
      one scenario: below 0.5 the feed scroll, from 0.5 up to 0.8 the post,
      from 0.8 on the story. */
  function Select(r: real): (s: Scenario)
    ensures s == ScrollFeed <==> r < 0.5
    ensures s == CreatePost <==> 0.5 <= r < 0.8
    ensures s == CreateStory <==> 0.8 <= r
  {
    if r < 0.5 then ScrollFeed
    else if r < 0.8 then CreatePost
    else CreateStory
  }

  /** The selection never goes back down the order as the draw grows. */
  lemma SelectMonotone(r1: real, r2: real)
    requires r1 <= r2
    ensures Rank(Select(r1)) <= Rank(Select(r2))
  {
  }

  /** The probability weights the thresholds stand for, in threshold order. */
  const Weights: seq<(Scenario, real)> := [(ScrollFeed, 0.5), (CreatePost, 0.3), (CreateStory, 0.2)]

  /** The sum of the weights; never negative when no weight is. */
  function TotalWeight(ws: seq<(Scenario, real)>): (total: real)
    ensures (forall k :: 0 <= k < |ws| ==> ws[k].1 >= 0.0) ==> total >= 0.0
  {
    if |ws| == 0 then 0.0 else ws[0].1 + TotalWeight(ws[1..])
  }

  /** Weighted choice by cumulative boundaries: the first entry whose
      running total, starting from `base`, exceeds the draw. None when the
      draw is at or past the last boundary. */
  function PickCumulative(ws: seq<(Scenario, real)>, base: real, r: real): (pick: Option<Scenario>)
    requires forall k :: 0 <= k < |ws| ==> ws[k].1 >= 0.0
    requires base <= r
    ensures pick.None? <==> base + TotalWeight(ws) <= r
    ensures pick.Some? ==> exists k :: 0 <= k < |ws| && ws[k].0 == pick.value
  {
    if |ws| == 0 then None
    else if r < base + ws[0].1 then Some(ws[0].0)
    else
      var rest := PickCumulative(ws[1..], base + ws[0].1, r);
      assert rest.Some? ==> exists k :: 1 <= k < |ws| && ws[k].0 == rest.value by {
        if rest.Some? {
          var k :| 0 <= k < |ws[1..]| && ws[1..][k].0 == rest.value;
          assert ws[k + 1].0 == rest.value;
        }
      }
      rest
  }

  /** The weights partition [0, 1): they sum to one. */
  lemma WeightsSumToOne()
    ensures TotalWeight(Weights) == 1.0
  {
  }

  /** The threshold chain is the cumulative-boundary choice over the weight
      table for every draw in [0, 1). */
  lemma SelectIsCumulative(r: real)
    requires 0.0 <= r < 1.0
    ensures PickCumulative(Weights, 0.0, r) == Some(Select(r))
  {
    assert Weights[1..] == [(CreatePost, 0.3), (CreateStory, 0.2)];
    assert Weights[1..][1..] == [(CreateStory, 0.2)];
  }

  /** Draws on both sides of each threshold and the scenario each selects. */
  lemma SampleDraws()
    ensures Select(0.0) == ScrollFeed && Select(0.49) == ScrollFeed
    ensures Select(0.5) == CreatePost && Select(0.79) == CreatePost
    ensures Select(0.8) == CreateStory && Select(0.99) == CreateStory
  {
  }

  /** What one iteration of the default function decides before calling
      into the HTTP layer: the account to log in with (None stands for
      `undefined`) and the scenario to run. */
  datatype Plan = Plan(account: Option<string>, scenario: Scenario)

  function Iteration(emails: seq<string>, vu: nat, r: real): (p: Plan)
    ensures p.account.Some? <==> |emails| > 0
    ensures p.account.Some? ==> p.account.value in emails
    ensures |emails| > 0 ==> p.account == Some(emails[vu % |emails|])
    ensures p.scenario == ScrollFeed <==> r < 0.5
    ensures p.scenario == CreatePost <==> 0.5 <= r < 0.8
    ensures p.scenario == CreateStory <==> 0.8 <= r
  {
    Plan(Accounts.AccountFor(emails, vu), Select(r))
  }

  /** A virtual user logs in with the same account on every iteration,
      whatever the draws: the account depends on the VU number only. */
  lemma AccountStableAcrossIterations(emails: seq<string>, vu: nat, r1: real, r2: real)
    ensures Iteration(emails, vu, r1).account == Iteration(emails, vu, r2).account
  {
  }
}

=== FILE: wrappers.dfy ===
/** The optional-value datatype shared by the other modules. It stands in for
    JavaScript's `undefined` and for "this line or body does not parse". */
module Wrappers {

  datatype Option<+T> = None | Some(value: T)
}
